=== FILE: README.md ===
# PDF-to-audiobook text preparation, modelled in Dafny

The program turns a PDF into one narrated MP3. Its only real logic is the
text-preparation path that feeds the speech synthesiser. The model covers
that path:

- **Normalisation** (`extract_text`, main.py:14). `re.sub(r'\s+', ' ', raw).strip()`
  collapses every whitespace run to one space and strips the ends. In the
  model this is `Normalization.Normalize = Strip(CollapseRuns(raw))`. Its
  independent reference is `Words`, Python's `str.split()`: the normalised
  text is the words of the raw text joined by single spaces.
- **Sentence splitting** (`chunk_text`, main.py:19).
  `re.split(r'(?<=[\.\?!])\s+', text)` is modelled as the regex engine's
  left-to-right scan, `Sentences.SplitSentences`. A split point is a
  whitespace character whose previous character is `.`, `?` or `!`. The
  whole whitespace run is dropped there. The terminator stays with the
  sentence before it.
- **Greedy packing** (`chunk_text`, main.py:20-29). `Chunker.Step` is one
  loop iteration. `Chunker.Pack` folds `Step` over the sentences.
  `Chunker.ChunkText` adds the final `if cur:`. `Chunker.ChunkTextLoop` is
  the same loop written as a method.

Strings are `seq<char>`, and Python's `len` becomes `|s|`. Both count code
points. `Chars.IsSpace` is the set of characters for which `str.isspace()`
holds. These are the characters that `\s` matches in a `str` pattern and
that `strip()` removes.

The docstring of `chunk_text` (main.py:18) promises pieces of at most
`max_chars` characters. The loop does not quite keep that promise, and the
model keeps the loop's behaviour:

- The flush at main.py:22-24 emits `cur` whether or not it is empty, and the
  `+ 1` for the separating space is counted even when `cur` is `""`. So for
  non-empty normalised text (all the pipeline passes), the first chunk is
  `""` exactly when the first sentence has at least `max_chars` characters
  (`ChunkTextEmptyChunk`). Such a text with no terminator whose length is at
  least `max_chars` gives `["", text]`. If no sentence of such a text is
  shorter than `max_chars`, the result is `""` followed by every sentence as
  its own chunk (`ChunkTextAllLong`). The empty text is different: it splits
  into `[""]` and gives `[""]` or `[]` depending on `max_chars`
  (`ChunkTextOfEmpty`).
- A non-empty sentence longer than `max_chars` is emitted whole, as a chunk
  of its own, over the limit (`ChunkTextLongAlone`); conversely, a chunk over
  the limit is such a sentence or `""` (`ChunkTextBound`).

## Model

| member | source | states |
|---|---|---|
| Chars.TrimStart | main.py:14 | `lstrip()` never lengthens the text, leaves it empty or starting with a non-space, and shortens it whenever it starts with whitespace |
| Chars.TrimStartSuffix | main.py:14 | what `lstrip()` keeps is a suffix of the input, and every character it drops is whitespace |
| Chars.TrimEnd | main.py:14 | `rstrip()` never lengthens the text and leaves it empty or ending with a non-space |
| Chars.TrimEndPrefix | main.py:14 | what `rstrip()` keeps is a prefix of the input, and every character it drops is whitespace |
| Chars.IsSpace | main.py:14 | the whitespace class: the characters for which `str.isspace()` holds, which are what `\s` matches in a `str` pattern and what `strip()` removes; a definition, used by every member below that mentions whitespace |
| Chars.IsTerminator | main.py:19 | the class `[\.\?!]` after which the split may happen; a definition, used by `Sentences.SplitFrom` |
| Chars.Strip | main.py:26 | `strip()` returns a string with no whitespace at either end, no longer than the input, and leaves the input unchanged exactly when neither end of the input is whitespace; `Chars.StripSlice` states which characters it keeps |
| Chars.StripSlice | main.py:14 | `strip()` removes only whitespace and only at the ends: its result is the slice of the input between the leading whitespace run and the trailing one, and every character outside that slice is whitespace |
| Chars.Join | main.py:26 | the pieces separated by single spaces (Python's `" ".join(xs)`), the string that repeated `cur + " " + s` builds; `Chars.JoinSnoc` gives how it grows, and `Sentences.SplitJoin` and `Sentences.SplitCharacterization` make it the inverse of the sentence split |
| Chars.JoinSnoc | main.py:26 | appending one more piece to a `" ".join` adds exactly one space and that piece |
| Chars.StripSpaced | main.py:26 | for trimmed `cur` and `s`, `(cur + " " + s).strip()` is `cur + " " + s`; when one side is empty it is the other side |
| Normalization.Words | main.py:14 | the reference definition, Python's `str.split()`: the maximal runs of non-whitespace characters, in order, each non-empty; `Normalization.NormalizeJoinsWords` proves the normalisation equal to these words joined by single spaces |
| Normalization.CollapseRuns | main.py:14 | after the substitution every whitespace character is a plain space and no two are adjacent; the result is empty exactly when the input is, and it starts with whitespace exactly when the input does; `Normalization.CollapseRunsLast` gives the trailing end |
| Normalization.CollapseRunsLast | main.py:14 | for non-empty input, the substituted text ends with a space when the input ends with whitespace, and with a non-space character otherwise; with the leading end, single spacing and the kept words this fixes the result |
| Normalization.Normalize | main.py:14 | the normalised text has no whitespace at either end, every whitespace in it is a plain space, and no two whitespace characters are adjacent |
| Normalization.WordsOfCollapse | main.py:14 | collapsing the runs keeps the words of the text, in order |
| Normalization.WordsOfNormalize | main.py:14 | normalising keeps the words of the text, in order |
| Normalization.JoinWordsOfNormalized | main.py:14 | normalised text is exactly its words joined by single spaces |
| Normalization.NormalizeJoinsWords | main.py:14 | normalising any text gives its words joined by single spaces (the reference definition) |
| Normalization.NormalizeFixpoint | main.py:14 | `Normalize(t) == t` holds exactly for normalised `t` |
| Normalization.NormalizeIdempotent | main.py:14 | normalising twice gives the same result as normalising once |
| Sentences.SplitFrom | main.py:19 | the regex engine's left-to-right scan: it extends the current piece until a terminator is followed by whitespace, then drops the whole whitespace run; it always yields at least one piece, and `Sentences.ReadWithoutBoundary` and `Sentences.SplitShape` state what the pieces are |
| Sentences.SplitSentences | main.py:19 | `re.split(r'(?<=[\.\?!])\s+', text)`: always at least one piece (`[""]` for the empty text); for non-empty normalised text, `Sentences.SplitShape` and `Sentences.SplitCharacterization` pin the pieces down as the unique list of sentences whose join is the text |
| Sentences.ReadWithoutBoundary | main.py:19 | characters with no split point among them only extend the current piece |
| Sentences.SplitShape | main.py:19 | for normalised non-empty text, every piece is non-empty, normalised and has no split point inside; every piece but the last ends in `.`, `?` or `!`; joining the pieces with single spaces gives the text back |
| Sentences.SplitJoin | main.py:19 | splitting the single-space join of such a list of sentences gives the same list back |
| Sentences.SplitCharacterization | main.py:19 | for normalised non-empty text, the split is the one list of well-formed sentences whose join is the text (both directions) |
| Sentences.SplitSnoc | main.py:19 | text that ends with a terminator, followed by one space and another sentence, splits into its own sentences and then that sentence |
| Sentences.JoinNormalized | main.py:19 | well-formed sentences joined by single spaces are normalised text |
| Chunker.Step | main.py:21-26 | if `len(cur) + len(s) + 1 > max_chars`, `cur` is emitted (even when empty) and `cur` becomes `s`; otherwise nothing is emitted, the new `cur` fits in `max_chars`, and for trimmed pieces it is `cur + " " + s` (just `s` when `cur` is empty) |
| Chunker.Pack | main.py:20-26 | the `for` loop over the sentences, from `chunks, cur = [], ""`; what it keeps is stated by `Chunker.PackInvariants`, `Chunker.PackBound`, `Chunker.PackWhole` and `Chunker.PackApart` |
| Chunker.Finish | main.py:27-28 | the final `if cur: chunks.append(cur)`: a non-empty `cur` becomes the last chunk, an empty one is dropped |
| Chunker.ChunkText | main.py:17-29 | `chunk_text(text, max_chars)`: split, pack, finish; its meaning is stated by the `Chunker.ChunkText…` lemmas below and its loop form by `Chunker.ChunkTextLoop` |
| Chunker.PackInvariants | main.py:20-26 | over the sentences read so far, the loop keeps these facts: `cur` is empty only before the first sentence; the chunks and `cur` are normalised; re-splitting the non-empty ones gives the sentences read; joining them gives the sentences joined; only the first chunk can be empty; no two neighbours fit together |
| Chunker.PackBound | main.py:20-26 | for any sentence list, every emitted chunk and `cur` is within `max_chars`, empty, or one of the sentences |
| Chunker.PackWhole | main.py:20-26 | nothing is emitted exactly when the joined sentences fit (a lone sentence also needs room for the `+ 1`); then `cur` holds all of them |
| Chunker.PackApart | main.py:20-26 | if no two neighbouring sentences fit together, the loop emits `""` (only when the first sentence does not fit beside the empty `cur`) and then every sentence but the last, and `cur` is the last |
| Chunker.ChunkTextOfEmpty | main.py:19-29 | empty text splits into `[""]`, so the result is `[]` when `max_chars >= 1` and `[""]` otherwise |
| Chunker.ChunkTextLossless | main.py:19-28 | for normalised text, removing the empty chunks and joining the rest with single spaces reproduces the text |
| Chunker.ChunkTextPartition | main.py:19-28 | for normalised non-empty text, splitting the non-empty chunks again yields exactly the text's sentences in order (none dropped, duplicated or reordered), and each non-empty chunk is its own sentences joined by single spaces |
| Chunker.ChunkTextBound | main.py:18-26 | for any text, a chunk longer than `max_chars` is the empty string or one of the sentences: only a single over-long sentence breaks the promised bound |
| Chunker.ChunkTextLongAlone | main.py:21-28 | for any text, every non-empty sentence longer than `max_chars` is itself one of the chunks: the flush at main.py:22-24 fires both when it is read and when the next sentence is read, and the final `if cur:` emits it when it is last |
| Chunker.ChunkTextEmptyChunk | main.py:22-24 | for normalised non-empty text, the first chunk is `""` exactly when the first sentence has at least `max_chars` characters; no other chunk is empty |
| Chunker.ChunkTextGreedy | main.py:21-26 | for normalised text, no two neighbouring chunks would fit together within `max_chars` |
| Chunker.ChunkTextWhole | main.py:21-29 | normalised non-empty text is returned as one chunk exactly when it fits (strictly, if it is a single sentence) |
| Chunker.ChunkTextApart | main.py:21-29 | for non-empty normalised text in which no two neighbouring sentences fit together, the chunks are the sentences, after `""` exactly when the first sentence alone does not fit |
| Chunker.ChunkTextAllLong | main.py:21-29 | for non-empty normalised text, if no sentence is shorter than `max_chars`, the result is `""` followed by every sentence |
| Chunker.RechunkStable | main.py:17-29 | for normalised text, chunking the rejoined chunks again gives the same chunks |
| Chunker.ChunkTextLoop | main.py:17-29 | the loop as written returns `ChunkText(text, max_chars)`; every chunk is within `max_chars`, empty, or a single sentence |
| Chunker.SpeechChunks | main.py:68-71 | the text path of `pdf_to_single_mp3`: normalise the extracted text, then chunk it with the default `max_chars = 4500`; stated by `Chunker.SpeechChunksLossless` and `Chunker.SpeechChunksBound` |
| Chunker.SpeechChunksLossless | main.py:66-71 | in the pipeline, the non-empty chunks joined by single spaces are the document's words joined by single spaces |
| Chunker.SpeechChunksBound | main.py:66-71 | in the pipeline, a chunk longer than 4500 characters is a single sentence of the normalised document |
| Examples.SampleSplit | main.py:19 | `"Hello world. This is a test! Is it working?"` splits into its three sentences |
| Examples.SampleAt20 | main.py:17-29 | with `max_chars = 20` the sample gives `["Hello world.", "This is a test!", "Is it working?"]` |
| Examples.SampleAt100 | main.py:17-29 | with `max_chars = 100` the sample gives the whole string as one chunk |
| Examples.SampleAt12 | main.py:22-24 | with `max_chars = 12` the sample gives `""` followed by the three sentences |

## Left out

- PDF reading and the per-page `"\n".join` (main.py:11-13): file I/O through PyPDF2. The model starts from the joined raw text.
- The Google Cloud TTS request and call (main.py:31-63): a network call, and `rate`/`pitch` are floats.
- pydub decoding, concatenation and MP3 export, and the progress and debug `print`s (main.py:59-61, main.py:66-83): audio-library wrappers and console output. `SpeechChunks` models only the text part of `pdf_to_single_mp3` (main.py:68-71).
- Command-line handling and `sys.exit` (main.py:86-95): glue around the process environment.
- Python strings may hold lone surrogates. Dafny's `char` cannot, so such strings are not modelled.
- Chunker.ChunkTextLossless: stated for normalised text only. That is what the one caller passes. For other text, `strip()` and the whitespace dropped at split points change the characters.
- Chunker.ChunkTextPartition: stated for normalised non-empty text. Empty text splits into `[""]`, which has no non-empty chunk to re-split.
- Chunker.ChunkTextGreedy: stated for normalised text. There `strip()` never shortens `cur`.
- Chunker.ChunkTextEmptyChunk, Chunker.ChunkTextWhole, Chunker.ChunkTextApart and Chunker.ChunkTextAllLong: stated for non-empty normalised text (the empty text is covered by `ChunkTextOfEmpty`), and Chunker.RechunkStable for normalised text. Normalised text is all `pdf_to_single_mp3` passes to `chunk_text` (main.py:68-71). On other text a sentence can be empty or all whitespace, and `strip()` can shorten `cur`.
- Chunker.ChunkTextBound: keeps the disjunct "or empty". With a negative `max_chars` the empty first chunk is longer than the limit. The source does not reject such a limit.

=== FILE: chars.dfy ===
/**
 The character classes and the `str` helpers that the text-preparation path
 relies on: Python's whitespace test (what `\s` matches in a `str` pattern and
 what `str.strip()` removes), the sentence terminators, `strip()` and
 `" ".join(...)`.
 */
module Chars {

  /** Python's `str.isspace()`: the characters `\s` matches in a `str` pattern
      and the ones `str.strip()` removes. */
  predicate IsSpace(c: char) {
    || ('\t' <= c <= '\r')
    || ('\U{1C}' <= c <= '\U{1F}')
    || c == ' '
    || c == '\U{85}'
    || c == '\U{A0}'
    || c == '\U{1680}'
    || ('\U{2000}' <= c <= '\U{200A}')
    || c == '\U{2028}'
    || c == '\U{2029}'
    || c == '\U{202F}'
    || c == '\U{205F}'
    || c == '\U{3000}'
  }

  /** The characters of the class `[\.\?!]` that ends a sentence. */
  predicate IsTerminator(c: char) {
    c == '.' || c == '?' || c == '!'
  }

  /** Neither end of `s` is whitespace (the empty string qualifies). */
  predicate Trimmed(s: string) {
    s == [] || (!IsSpace(s[0]) && !IsSpace(s[|s| - 1]))
  }

  /** `s.lstrip()`: drops the maximal whitespace prefix. */
  function TrimStart(s: string): (r: string)
    ensures |r| <= |s|
    ensures r == [] || !IsSpace(r[0])
    ensures s != [] && IsSpace(s[0]) ==> |r| < |s|
  {
    if s == [] || !IsSpace(s[0]) then s else TrimStart(s[1..])
  }

  /** What `lstrip()` removes is a prefix made of whitespace only. */
  lemma {:induction false} TrimStartSuffix(s: string)
    ensures TrimStart(s) == s[|s| - |TrimStart(s)|..]
    ensures forall i :: 0 <= i < |s| - |TrimStart(s)| ==> IsSpace(s[i])
    decreases |s|
  {
    if s != [] && IsSpace(s[0]) {
      TrimStartSuffix(s[1..]);
      assert s[1..][|s| - 1 - |TrimStart(s)|..] == s[|s| - |TrimStart(s)|..];
      forall i | 1 <= i < |s| - |TrimStart(s)|
        ensures IsSpace(s[i])
      {
        assert s[i] == s[1..][i - 1];
      }
    }
  }

  /** `TrimStart` is determined by its contract: a suffix whose dropped
      prefix is all whitespace and which does not start with whitespace. */
  lemma {:induction false} TrimStartUnique(s: string, r: string)
    requires |r| <= |s| && r == s[|s| - |r|..]
    requires forall i :: 0 <= i < |s| - |r| ==> IsSpace(s[i])
    requires r == [] || !IsSpace(r[0])
    ensures TrimStart(s) == r
    decreases |s|
  {
    if |r| < |s| {
      assert IsSpace(s[0]);
      assert s[1..][|s| - 1 - |r|..] == r;
      TrimStartUnique(s[1..], r);
    }
  }

  /** `lstrip()` of a concatenation: the second part matters only when the
      first is all whitespace. */
  lemma {:induction false} TrimStartAppend(x: string, y: string)
    ensures TrimStart(x) == [] ==> TrimStart(x + y) == TrimStart(y)
    ensures TrimStart(x) != [] ==> TrimStart(x + y) == TrimStart(x) + y
    decreases |x|
  {
    if x == [] {
      assert x + y == y;
    } else if !IsSpace(x[0]) {
      assert (x + y)[0] == x[0];
    } else {
      assert (x + y)[0] == x[0];
      assert (x + y)[1..] == x[1..] + y;
      TrimStartAppend(x[1..], y);
    }
  }

  /** A single whitespace character before a non-space is all `lstrip()` drops. */
  lemma TrimStartSpace(c: char, tail: string)
    requires IsSpace(c) && (tail == [] || !IsSpace(tail[0]))
    ensures TrimStart([c] + tail) == tail == TrimStart(tail)
  {
    assert ([c] + tail)[1..] == tail;
  }

  /** `s.rstrip()`: drops the maximal whitespace suffix. */
  function TrimEnd(s: string): (r: string)
    ensures |r| <= |s|
    ensures r == [] || !IsSpace(r[|r| - 1])
  {
    if s == [] || !IsSpace(s[|s| - 1]) then s else TrimEnd(s[..|s| - 1])
  }

  /** What `rstrip()` removes is a suffix made of whitespace only. */
  lemma {:induction false} TrimEndPrefix(s: string)
    ensures TrimEnd(s) == s[..|TrimEnd(s)|]
    ensures forall i :: |TrimEnd(s)| <= i < |s| ==> IsSpace(s[i])
    decreases |s|
  {
    if s != [] && IsSpace(s[|s| - 1]) {
      var s' := s[..|s| - 1];
      TrimEndPrefix(s');
      assert s'[..|TrimEnd(s)|] == s[..|TrimEnd(s)|];
      forall i | |TrimEnd(s)| <= i < |s| - 1
        ensures IsSpace(s[i])
      {
        assert s[i] == s'[i];
      }
    }
  }

  /** `s.strip()`. */
  function Strip(s: string): (r: string)
    ensures Trimmed(r)
    ensures |r| <= |s|
    ensures r == s <==> Trimmed(s)
  {
    var t := TrimStart(s);
    TrimEndPrefix(t);
    TrimEnd(t)
  }

  /** `strip()` removes only whitespace, and only at the two ends: the result
      is the slice of `s` between its leading run and its trailing run. */
  lemma StripSlice(s: string)
    ensures var k := |s| - |TrimStart(s)|;
            k + |Strip(s)| <= |s| && Strip(s) == s[k..k + |Strip(s)|]
    ensures forall i :: 0 <= i < |s| - |TrimStart(s)| ==> IsSpace(s[i])
    ensures forall i :: |s| - |TrimStart(s)| + |Strip(s)| <= i < |s| ==> IsSpace(s[i])
  {
    var t := TrimStart(s);
    TrimStartSuffix(s);
    TrimEndPrefix(t);
    var r := TrimEnd(t);
    assert Strip(s) == r;
    SuffixFacts(s, |s| - |t|, t, |r|);
  }

  /** Index arithmetic between the suffix `t == s[k..]` and `s`: the first `m`
      characters of `t` are `s[k..k + m]`, and whitespace from index `m` of
      `t` on is whitespace from index `k + m` of `s` on. */
  lemma SuffixFacts(s: string, k: nat, t: string, m: nat)
    requires k <= |s| && t == s[k..] && m <= |t|
    requires forall j :: m <= j < |t| ==> IsSpace(t[j])
    ensures t[..m] == s[k..k + m]
    ensures forall i :: k + m <= i < |s| ==> IsSpace(s[i])
  {
    forall i | k + m <= i < |s|
      ensures IsSpace(s[i])
    {
      assert s[i] == t[i - k];
    }
  }

  /** `" ".join(xs)`. */
  function Join(xs: seq<string>): (r: string)
  {
    if |xs| == 0 then "" else if |xs| == 1 then xs[0] else xs[0] + " " + Join(xs[1..])
  }

  lemma JoinCons(x: string, xs: seq<string>)
    requires |xs| > 0
    ensures Join([x] + xs) == x + " " + Join(xs)
  {
    assert ([x] + xs)[1..] == xs;
  }

  /** Appending one more piece adds exactly one separating space. */
  lemma {:induction false} JoinSnoc(xs: seq<string>, y: string)
    ensures Join(xs + [y]) == if |xs| == 0 then y else Join(xs) + " " + y
  {
    if |xs| == 0 {
      assert xs + [y] == [y];
    } else if |xs| == 1 {
      assert xs + [y] == [xs[0], y];
      assert [xs[0], y][1..] == [y];
    } else {
      assert (xs + [y])[1..] == xs[1..] + [y];
      JoinSnoc(xs[1..], y);
    }
  }

  /** Joining around a single space: `Strip(a + " " + b)` removes only the space
      that an empty side leaves at an end. */
  lemma StripSpaced(a: string, b: string)
    requires Trimmed(a) && Trimmed(b)
    ensures Strip(a + " " + b) == if a == [] then b else if b == [] then a else a + " " + b
  {
    var t := a + " " + b;
    if a == [] {
      assert t == " " + b;
      assert t[1..] == b;
      assert TrimStart(t) == TrimStart(b) == b;
    } else if b == [] {
      assert TrimStart(t) == t;
      assert t[..|t| - 1] == a;
      assert TrimEnd(t) == TrimEnd(a) == a;
    } else {
      assert TrimStart(t) == t;
      assert TrimEnd(t) == t;
    }
  }
}

=== FILE: chunker.dfy ===
/**
 Greedy chunk packing, `chunk_text(text, max_chars)`: the sentences are
 folded left to right into an accumulator `cur`; a sentence joins `cur`
 when `len(cur) + len(s) + 1 <= max_chars`, otherwise `cur` is emitted as a
 chunk (even when it is empty) and `cur` restarts with the sentence. The
 accumulator is emitted at the end when it is not empty.
 */
module Chunker {
  import opened Chars
  import opened Normalization
  import opened Sentences

  /** The default of `max_chars` (main.py:17), used by the caller at main.py:71. */
  const DefaultMaxChars: int := 4500

  /** The loop state of `chunk_text`: the chunks emitted so far and `cur`. */
  datatype Packer = Packer(chunks: seq<string>, cur: string)

  /** The initial state `chunks, cur = [], ""`. */
  const Start := Packer([], "")

  /** One iteration of the loop body. The flush branch has no guard against
      an empty `cur`, and the `+ 1` is counted even when `cur` is empty. On
      trimmed pieces the `strip()` only removes the separator an empty side
      leaves at an end. */
  function Step(p: Packer, s: string, maxChars: int): (q: Packer)
    ensures |p.cur| + |s| + 1 > maxChars ==> q.chunks == p.chunks + [p.cur] && q.cur == s
    ensures |p.cur| + |s| + 1 <= maxChars ==> q.chunks == p.chunks && |q.cur| <= maxChars
    ensures |p.cur| + |s| + 1 <= maxChars && Trimmed(p.cur) && Trimmed(s) ==>
              q.cur == if p.cur == [] then s else if s == [] then p.cur else p.cur + " " + s
  {
    if |p.cur| + |s| + 1 > maxChars then
      Packer(p.chunks + [p.cur], s)
    else
      var c := Strip(p.cur + " " + s);
      assert Trimmed(p.cur) && Trimmed(s) ==>
               c == if p.cur == [] then s else if s == [] then p.cur else p.cur + " " + s by {
        if Trimmed(p.cur) && Trimmed(s) {
          StripSpaced(p.cur, s);
        }
      }
      Packer(p.chunks, c)
  }

  /** The loop run over the sentences `ss`, from the initial state. */
  function Pack(ss: seq<string>, maxChars: int): (p: Packer)
  {
    if ss == [] then Start else Step(Pack(ss[..|ss| - 1], maxChars), ss[|ss| - 1], maxChars)
  }

  /** The final `if cur: chunks.append(cur)`. */
  function Finish(p: Packer): (chunks: seq<string>)
  {
    if p.cur != [] then p.chunks + [p.cur] else p.chunks
  }

  /** `chunk_text(text, max_chars)` (main.py:17-29). */
  function ChunkText(text: string, maxChars: int): (chunks: seq<string>)
  {
    Finish(Pack(SplitSentences(text), maxChars))
  }

  /** The text path of the pipeline (main.py:68-71): normalise the extracted
      text and chunk it with the default limit. */
  function SpeechChunks(raw: string): (chunks: seq<string>)
  {
    ChunkText(Normalize(raw), DefaultMaxChars)
  }

  /** The pieces that are not the empty string, in order. */
  function NonEmpty(xs: seq<string>): (ys: seq<string>)
  {
    if xs == [] then []
    else NonEmpty(xs[..|xs| - 1]) + (if xs[|xs| - 1] == [] then [] else [xs[|xs| - 1]])
  }

  /** The sentences of each piece, one piece after the other. */
  function Resplit(cs: seq<string>): (ss: seq<string>)
  {
    if cs == [] then [] else Resplit(cs[..|cs| - 1]) + SplitSentences(cs[|cs| - 1])
  }

  lemma NonEmptySnoc(xs: seq<string>, y: string)
    ensures NonEmpty(xs + [y]) == NonEmpty(xs) + (if y == [] then [] else [y])
  {
    assert (xs + [y])[..|xs|] == xs;
  }

  lemma ResplitSnoc(cs: seq<string>, c: string)
    ensures Resplit(cs + [c]) == Resplit(cs) + SplitSentences(c)
  {
    assert (cs + [c])[..|cs|] == cs;
  }

  // ---------------------------------------------------------------------
  // What the loop keeps, over the sentences `ss` read so far.

  /** `cur` is empty exactly before the first sentence, and trimmed. */
  predicate Begun(ss: seq<string>, p: Packer) {
    && (p.cur == [] <==> ss == [])
    && (ss == [] ==> p.chunks == [])
    && Trimmed(p.cur)
  }

  /** Besides, every chunk and `cur` is empty or normalised text. */
  predicate ShapeInv(ss: seq<string>, p: Packer) {
    && Begun(ss, p)
    && (p.cur != [] ==> IsNormalized(p.cur))
    && (forall i :: 0 <= i < |p.chunks| ==> p.chunks[i] == [] || IsNormalized(p.chunks[i]))
  }

  /** Splitting the non-empty pieces again gives the sentences read. */
  predicate PartitionInv(ss: seq<string>, p: Packer) {
    Resplit(NonEmpty(p.chunks + [p.cur])) == ss
  }

  /** Joining the non-empty pieces gives the sentences read, joined. */
  predicate JoinInv(ss: seq<string>, p: Packer) {
    Join(NonEmpty(p.chunks + [p.cur])) == Join(ss)
  }

  /** Only the first chunk can be empty, and it is empty exactly when the
      first sentence did not fit beside the empty accumulator. */
  predicate EmptyInv(ss: seq<string>, p: Packer, maxChars: int) {
    && (forall i :: 0 < i < |p.chunks| ==> p.chunks[i] != [])
    && ((|p.chunks| > 0 && p.chunks[0] == []) <==> (|ss| > 0 && |ss[0]| >= maxChars))
  }

  /** Every piece fits, or is empty, or is one of the sentences. */
  predicate BoundInv(ss: seq<string>, p: Packer, maxChars: int) {
    && (forall i :: 0 <= i < |p.chunks| ==> |p.chunks[i]| <= maxChars || p.chunks[i] == [] || p.chunks[i] in ss)
    && (|p.cur| <= maxChars || p.cur == [] || p.cur in ss)
  }

  /** No two neighbouring pieces would fit together. */
  predicate GreedyInv(p: Packer, maxChars: int) {
    && (forall i :: 0 <= i < |p.chunks| - 1 ==> |p.chunks[i]| + 1 + |p.chunks[i + 1]| > maxChars)
    && (|p.chunks| > 0 ==> |p.chunks[|p.chunks| - 1]| + 1 + |p.cur| > maxChars)
  }

  lemma StepShape(ss: seq<string>, s: string, p: Packer, maxChars: int)
    requires IsSentence(s) && ShapeInv(ss, p)
    ensures ShapeInv(ss + [s], Step(p, s, maxChars))
  {
    if |p.cur| + |s| + 1 <= maxChars && p.cur != [] {
      NormalizedSpaced(p.cur, s);
    }
  }

  lemma StepPartition(ss: seq<string>, s: string, p: Packer, maxChars: int)
    requires SentenceList(ss + [s]) && ShapeInv(ss, p) && PartitionInv(ss, p)
    ensures PartitionInv(ss + [s], Step(p, s, maxChars))
  {
    var q := Step(p, s, maxChars);
    assert (ss + [s])[|ss|] == s;
    assert IsSentence(s);
    SplitJoin([s]);
    if |p.cur| + |s| + 1 > maxChars {
      PartitionFlush(ss, s, p.chunks + [p.cur]);
      assert q.chunks + [q.cur] == (p.chunks + [p.cur]) + [s];
    } else if p.cur == [] {
      PartitionFirst(s);
      assert q.chunks + [q.cur] == [s];
    } else {
      assert EndsWithTerminator(ss[|ss| - 1]) by {
        assert (ss + [s])[|ss| - 1] == ss[|ss| - 1];
      }
      PartitionAppend(ss, s, p.chunks, p.cur);
    }
  }

  lemma PartitionFlush(ss: seq<string>, s: string, pieces: seq<string>)
    requires Resplit(NonEmpty(pieces)) == ss && s != [] && SplitSentences(s) == [s]
    ensures Resplit(NonEmpty(pieces + [s])) == ss + [s]
  {
    NonEmptySnoc(pieces, s);
    ResplitSnoc(NonEmpty(pieces), s);
  }

  lemma PartitionFirst(s: string)
    requires s != [] && SplitSentences(s) == [s]
    ensures Resplit(NonEmpty([s])) == [s]
  {
    NonEmptySnoc([], s);
    ResplitSnoc([], s);
  }

  lemma PartitionAppend(ss: seq<string>, s: string, chunks: seq<string>, cur: string)
    requires cur != [] && IsNormalized(cur) && IsSentence(s)
    requires Resplit(NonEmpty(chunks + [cur])) == ss
    requires |ss| > 0 && EndsWithTerminator(ss[|ss| - 1])
    ensures Resplit(NonEmpty(chunks + [cur + " " + s])) == ss + [s]
  {
    var r := Resplit(NonEmpty(chunks));
    ResplitPush(chunks, cur);
    LastOfAppend(r, SplitSentences(cur));
    SplitSnoc(cur, s);
    ResplitPush(chunks, cur + " " + s);
    SnocAssoc(r, SplitSentences(cur), s);
  }

  /** A non-empty piece after `chunks` adds its own sentences. */
  lemma ResplitPush(chunks: seq<string>, c: string)
    requires c != []
    ensures Resplit(NonEmpty(chunks + [c])) == Resplit(NonEmpty(chunks)) + SplitSentences(c)
  {
    NonEmptySnoc(chunks, c);
    ResplitSnoc(NonEmpty(chunks), c);
  }

  lemma SnocAssoc<T>(a: seq<T>, b: seq<T>, c: T)
    ensures a + (b + [c]) == (a + b) + [c]
  {
  }

  lemma LastOfAppend<T>(a: seq<T>, b: seq<T>)
    requires |b| > 0
    ensures (a + b)[|a + b| - 1] == b[|b| - 1]
  {
  }

  lemma StepJoin(ss: seq<string>, s: string, p: Packer, maxChars: int)
    requires s != [] && Trimmed(s) && Begun(ss, p) && JoinInv(ss, p)
    ensures JoinInv(ss + [s], Step(p, s, maxChars))
  {
    if |p.cur| + |s| + 1 > maxChars {
      JoinFlush(ss, s, p.chunks, p.cur);
      assert Step(p, s, maxChars) == Packer(p.chunks + [p.cur], s);
    } else if p.cur == [] {
      JoinFirst(s);
      assert Step(p, s, maxChars) == Packer([], s);
    } else {
      JoinAppend(ss, s, p.chunks, p.cur);
      assert Step(p, s, maxChars) == Packer(p.chunks, p.cur + " " + s);
    }
  }

  lemma JoinFirst(s: string)
    requires s != []
    ensures JoinInv([] + [s], Packer([], s))
  {
    assert [] + [s] == [s];
    NonEmptySnoc([], s);
  }

  lemma JoinFlush(ss: seq<string>, s: string, chunks: seq<string>, cur: string)
    requires s != [] && Join(NonEmpty(chunks + [cur])) == Join(ss)
    requires cur == [] <==> ss == []
    requires ss == [] ==> chunks == []
    ensures JoinInv(ss + [s], Packer(chunks + [cur], s))
  {
    JoinSnoc(ss, s);
    var before := NonEmpty(chunks + [cur]);
    NonEmptySnoc(chunks + [cur], s);
    JoinSnoc(before, s);
    if ss == [] {
      assert chunks + [cur] == [[]];
      NonEmptySnoc([], []);
    } else {
      NonEmptySnoc(chunks, cur);
    }
  }

  lemma JoinAppend(ss: seq<string>, s: string, chunks: seq<string>, cur: string)
    requires cur != [] && ss != [] && Join(NonEmpty(chunks + [cur])) == Join(ss)
    ensures JoinInv(ss + [s], Packer(chunks, cur + " " + s))
  {
    JoinSnoc(ss, s);
    var before := NonEmpty(chunks);
    NonEmptySnoc(chunks, cur);
    NonEmptySnoc(chunks, cur + " " + s);
    JoinSnoc(before, cur);
    JoinSnoc(before, cur + " " + s);
    if before != [] {
      JoinAssoc(Join(before), cur, s);
    }
  }

  lemma JoinAssoc(a: string, b: string, c: string)
    ensures a + " " + (b + " " + c) == a + " " + b + " " + c
  {
  }

  lemma StepEmpty(ss: seq<string>, s: string, p: Packer, maxChars: int)
    requires s != [] && Begun(ss, p) && EmptyInv(ss, p, maxChars)
    ensures EmptyInv(ss + [s], Step(p, s, maxChars), maxChars)
  {
    if |p.cur| + |s| + 1 > maxChars {
      EmptyFlush(ss, s, p.chunks, p.cur, maxChars);
      assert Step(p, s, maxChars) == Packer(p.chunks + [p.cur], s);
    } else {
      assert Step(p, s, maxChars).chunks == p.chunks;
      assert (ss + [s])[0] == if ss == [] then s else ss[0];
    }
  }

  lemma EmptyFlush(ss: seq<string>, s: string, chunks: seq<string>, cur: string, maxChars: int)
    requires EmptyInv(ss, Packer(chunks, cur), maxChars) && |cur| + |s| + 1 > maxChars
    requires cur == [] <==> ss == []
    requires ss == [] ==> chunks == []
    ensures EmptyInv(ss + [s], Packer(chunks + [cur], s), maxChars)
  {
    var cs := chunks + [cur];
    assert (ss + [s])[0] == if ss == [] then s else ss[0];
    assert forall i :: 0 <= i < |chunks| ==> cs[i] == chunks[i];
    assert cs[|chunks|] == cur;
  }

  lemma StepBound(ss: seq<string>, s: string, p: Packer, maxChars: int)
    requires BoundInv(ss, p, maxChars)
    ensures BoundInv(ss + [s], Step(p, s, maxChars), maxChars)
  {
    assert forall x :: x in ss ==> x in ss + [s];
    assert s in ss + [s];
  }

  lemma StepGreedy(ss: seq<string>, s: string, p: Packer, maxChars: int)
    requires Trimmed(s) && Begun(ss, p) && GreedyInv(p, maxChars)
    ensures GreedyInv(Step(p, s, maxChars), maxChars)
  {
    var q := Step(p, s, maxChars);
    if |p.cur| + |s| + 1 > maxChars {
      GreedyFlush(p.chunks, p.cur, s, maxChars);
    } else {
      assert p.cur == [] ==> p.chunks == [];
      assert |q.cur| >= |p.cur|;
    }
  }

  lemma GreedyFlush(chunks: seq<string>, cur: string, s: string, maxChars: int)
    requires GreedyInv(Packer(chunks, cur), maxChars) && |cur| + |s| + 1 > maxChars
    ensures GreedyInv(Packer(chunks + [cur], s), maxChars)
  {
    var n := |chunks|;
    var cs := chunks + [cur];
    assert forall i :: 0 <= i < n ==> cs[i] == chunks[i];
    assert cs[n] == cur;
  }

  /** Everything the loop keeps, by induction over the sentences read. */
  lemma {:induction false} PackInvariants(ss: seq<string>, maxChars: int)
    requires SentenceList(ss)
    ensures ShapeInv(ss, Pack(ss, maxChars))
    ensures PartitionInv(ss, Pack(ss, maxChars))
    ensures JoinInv(ss, Pack(ss, maxChars))
    ensures EmptyInv(ss, Pack(ss, maxChars), maxChars)
    ensures GreedyInv(Pack(ss, maxChars), maxChars)
  {
    if ss == [] {
      assert NonEmpty([[]]) == [] by {
        NonEmptySnoc([], []);
      }
    } else {
      var n := |ss| - 1;
      var prev := ss[..n];
      var s := ss[n];
      assert prev + [s] == ss;
      assert SentenceList(prev) by {
        assert forall i :: 0 <= i < n ==> prev[i] == ss[i];
      }
      assert IsSentence(s);
      PackInvariants(prev, maxChars);
      var p := Pack(prev, maxChars);
      StepShape(prev, s, p, maxChars);
      assert Begun(prev, p);
      StepPartition(prev, s, p, maxChars);
      StepJoin(prev, s, p, maxChars);
      StepEmpty(prev, s, p, maxChars);
      StepGreedy(prev, s, p, maxChars);
    }
  }

  /** The bound holds whatever the text: every state keeps `BoundInv`. */
  lemma {:induction false} PackBound(ss: seq<string>, maxChars: int)
    ensures BoundInv(ss, Pack(ss, maxChars), maxChars)
  {
    if ss != [] {
      var n := |ss| - 1;
      assert ss[..n] + [ss[n]] == ss;
      PackBound(ss[..n], maxChars);
      StepBound(ss[..n], ss[n], Pack(ss[..n], maxChars), maxChars);
    }
  }

  /** After at least one sentence the accumulator is not empty, so the
      result is the emitted chunks followed by `cur`. */
  lemma ChunkTextShape(text: string, maxChars: int) returns (p: Packer)
    requires IsNormalized(text) && text != []
    ensures p == Pack(SplitSentences(text), maxChars)
    ensures SentenceList(SplitSentences(text)) && Join(SplitSentences(text)) == text
    ensures p.cur != [] && ChunkText(text, maxChars) == p.chunks + [p.cur]
  {
    var ss := SplitSentences(text);
    SplitShape(text);
    PackInvariants(ss, maxChars);
    p := Pack(ss, maxChars);
  }

  // The four projections below each give one conjunct of `PackInvariants`.
  // The lemmas about `chunk_text` call them rather than `PackInvariants`, so
  // that only the fact each proof needs enters the solver's context.

  lemma PackShape(ss: seq<string>, maxChars: int)
    requires SentenceList(ss)
    ensures ShapeInv(ss, Pack(ss, maxChars)) && PartitionInv(ss, Pack(ss, maxChars))
  {
    PackInvariants(ss, maxChars);
  }

  lemma PackJoin(ss: seq<string>, maxChars: int)
    requires SentenceList(ss)
    ensures JoinInv(ss, Pack(ss, maxChars))
  {
    PackInvariants(ss, maxChars);
  }

  lemma PackEmpty(ss: seq<string>, maxChars: int)
    requires SentenceList(ss)
    ensures EmptyInv(ss, Pack(ss, maxChars), maxChars)
  {
    PackInvariants(ss, maxChars);
  }

  lemma PackGreedy(ss: seq<string>, maxChars: int)
    requires SentenceList(ss)
    ensures GreedyInv(Pack(ss, maxChars), maxChars)
  {
    PackInvariants(ss, maxChars);
  }

  // ---------------------------------------------------------------------
  // Properties of `chunk_text`.

  /** Empty text splits into the one sentence `""`; it is dropped by the
      final guard when `max_chars >= 1` and emitted by the flush otherwise. */
  lemma ChunkTextOfEmpty(maxChars: int)
    ensures ChunkText("", maxChars) == if maxChars >= 1 then [] else [""]
  {
    assert SplitSentences("") == [""];
    assert [""][..0] == [];
    assert Pack([""], maxChars) == Step(Start, "", maxChars);
    if maxChars >= 1 {
      assert Step(Start, "", maxChars) == Packer([], "");
    } else {
      assert Step(Start, "", maxChars) == Packer([""], "");
    }
  }

  /** Dropping the empty chunks and joining the rest with single spaces gives
      the normalised text back. */
  lemma ChunkTextLossless(text: string, maxChars: int)
    requires IsNormalized(text)
    ensures Join(NonEmpty(ChunkText(text, maxChars))) == text
  {
    if text == [] {
      ChunkTextOfEmpty(maxChars);
      NonEmptySnoc([], "");
    } else {
      var p := ChunkTextShape(text, maxChars);
      PackJoin(SplitSentences(text), maxChars);
    }
  }

  /** Every non-empty chunk is a run of whole sentences joined by single
      spaces, and splitting the chunks again yields exactly the sentences of
      the text, in order: none is dropped, duplicated or reordered. */
  lemma ChunkTextPartition(text: string, maxChars: int)
    requires IsNormalized(text) && text != []
    ensures Resplit(NonEmpty(ChunkText(text, maxChars))) == SplitSentences(text)
    ensures forall c :: c in ChunkText(text, maxChars) && c != [] ==>
              IsNormalized(c) && Join(SplitSentences(c)) == c
  {
    var p := ChunkTextShape(text, maxChars);
    PackShape(SplitSentences(text), maxChars);
    var r := ChunkText(text, maxChars);
    forall c | c in r && c != []
      ensures IsNormalized(c) && Join(SplitSentences(c)) == c
    {
      SplitShape(c);
    }
  }

  /** The length bound with its exception: a chunk longer than `max_chars`
      is one of the sentences of the text (or the empty first chunk when
      `max_chars` is negative). This holds for any text. */
  lemma ChunkTextBound(text: string, maxChars: int)
    ensures forall c :: c in ChunkText(text, maxChars) ==>
              |c| <= maxChars || c == [] || c in SplitSentences(text)
  {
    var ss := SplitSentences(text);
    PackBound(ss, maxChars);
  }

  /** A sentence longer than the limit is flushed on its own: reading it
      flushes the previous `cur`, and reading the next sentence flushes it. */
  lemma {:induction false} PackLongAlone(ss: seq<string>, maxChars: int)
    ensures forall i :: 0 <= i < |ss| - 1 && |ss[i]| > maxChars ==> ss[i] in Pack(ss, maxChars).chunks
    ensures |ss| > 0 && |ss[|ss| - 1]| > maxChars ==> Pack(ss, maxChars).cur == ss[|ss| - 1]
    decreases |ss|
  {
    if ss != [] {
      var pre := ss[..|ss| - 1];
      var s := ss[|ss| - 1];
      PackLongAlone(pre, maxChars);
      var p := Pack(pre, maxChars);
      var q := Step(p, s, maxChars);
      assert Pack(ss, maxChars) == q;
      forall i | 0 <= i < |ss| - 1 && |ss[i]| > maxChars
        ensures ss[i] in q.chunks
      {
        assert ss[i] == pre[i];
        if i < |pre| - 1 {
          assert ss[i] in p.chunks;
        } else {
          assert p.cur == ss[i];
        }
      }
    }
  }

  /** A non-empty sentence longer than `max_chars` is one of the chunks, whole. */
  lemma ChunkTextLongAlone(text: string, maxChars: int)
    ensures forall s :: s in SplitSentences(text) && s != [] && |s| > maxChars ==>
              s in ChunkText(text, maxChars)
  {
    var ss := SplitSentences(text);
    PackLongAlone(ss, maxChars);
    var p := Pack(ss, maxChars);
    forall s | s in ss && s != [] && |s| > maxChars
      ensures s in Finish(p)
    {
      var i :| 0 <= i < |ss| && ss[i] == s;
      if i < |ss| - 1 {
        assert s in p.chunks;
      } else {
        assert p.cur == s;
      }
    }
  }

  /** The empty first chunk: `""` is emitted first exactly when the first
      sentence has at least `max_chars` characters; no other chunk is empty. */
  lemma ChunkTextEmptyChunk(text: string, maxChars: int)
    requires IsNormalized(text) && text != []
    ensures (|ChunkText(text, maxChars)| > 0 && ChunkText(text, maxChars)[0] == [])
            <==> |SplitSentences(text)[0]| >= maxChars
    ensures forall i :: 0 < i < |ChunkText(text, maxChars)| ==> ChunkText(text, maxChars)[i] != []
  {
    var p := ChunkTextShape(text, maxChars);
    PackEmpty(SplitSentences(text), maxChars);
    var r := p.chunks + [p.cur];
    assert forall i :: 0 <= i < |p.chunks| ==> r[i] == p.chunks[i];
  }

  /** Greedy packing: no two neighbouring chunks would have fitted together. */
  lemma ChunkTextGreedy(text: string, maxChars: int)
    requires IsNormalized(text)
    ensures forall i :: 0 <= i < |ChunkText(text, maxChars)| - 1 ==>
              |ChunkText(text, maxChars)[i]| + 1 + |ChunkText(text, maxChars)[i + 1]| > maxChars
  {
    if text == [] {
      ChunkTextOfEmpty(maxChars);
    } else {
      var p := ChunkTextShape(text, maxChars);
      PackGreedy(SplitSentences(text), maxChars);
      GreedyFinish(p, maxChars);
    }
  }

  lemma GreedyFinish(p: Packer, maxChars: int)
    requires GreedyInv(p, maxChars)
    ensures forall i :: 0 <= i < |p.chunks + [p.cur]| - 1 ==>
              |(p.chunks + [p.cur])[i]| + 1 + |(p.chunks + [p.cur])[i + 1]| > maxChars
  {
    var r := p.chunks + [p.cur];
    assert forall i :: 0 <= i < |p.chunks| ==> r[i] == p.chunks[i];
  }

  /** Re-chunking the rejoined chunks gives the same chunks. */
  lemma RechunkStable(text: string, maxChars: int)
    requires IsNormalized(text)
    ensures ChunkText(Join(NonEmpty(ChunkText(text, maxChars))), maxChars) == ChunkText(text, maxChars)
  {
    ChunkTextLossless(text, maxChars);
  }

  /** While nothing has been emitted, `cur` holds all sentences read, and
      nothing is emitted as long as they fit together (a lone sentence needs
      room for the `+ 1` as well). */
  lemma {:induction false} PackWhole(ss: seq<string>, maxChars: int)
    requires |ss| >= 1 && SentenceList(ss)
    ensures Pack(ss, maxChars).chunks == [] <==>
              |Join(ss)| <= maxChars && (|ss| == 1 ==> |Join(ss)| < maxChars)
    ensures Pack(ss, maxChars).chunks == [] ==> Pack(ss, maxChars).cur == Join(ss)
  {
    var n := |ss| - 1;
    if n == 0 {
      assert ss[..0] == [];
      assert IsSentence(ss[0]);
      assert Pack(ss, maxChars) == Step(Start, ss[0], maxChars);
    } else {
      var prev := ss[..n];
      assert ss == prev + [ss[n]];
      assert SentenceList(prev) by {
        assert forall i :: 0 <= i < n ==> prev[i] == ss[i];
      }
      assert IsSentence(ss[n]);
      PackWhole(prev, maxChars);
      WholeSnoc(prev, ss[n], maxChars);
    }
  }

  /** The inductive step of `PackWhole`: one more sentence after `prev`. */
  lemma WholeSnoc(prev: seq<string>, s: string, maxChars: int)
    requires |prev| >= 1 && SentenceList(prev) && IsSentence(s)
    requires Pack(prev, maxChars).chunks == [] <==>
              |Join(prev)| <= maxChars && (|prev| == 1 ==> |Join(prev)| < maxChars)
    requires Pack(prev, maxChars).chunks == [] ==> Pack(prev, maxChars).cur == Join(prev)
    ensures Pack(prev + [s], maxChars).chunks == [] <==> |Join(prev + [s])| <= maxChars
    ensures Pack(prev + [s], maxChars).chunks == [] ==> Pack(prev + [s], maxChars).cur == Join(prev + [s])
  {
    var ss := prev + [s];
    assert ss[..|prev|] == prev && ss[|prev|] == s;
    JoinSnoc(prev, s);
    JoinNormalized(prev);
    assert IsSentence(prev[0]);
    JoinHead(prev);
    WholeStep(Pack(prev, maxChars), Join(prev), s, |prev| == 1, maxChars);
  }

  /** One step of `PackWhole`: `j` is the join of the sentences read so far. */
  lemma WholeStep(p: Packer, j: string, s: string, single: bool, maxChars: int)
    requires Trimmed(j) && j != [] && Trimmed(s) && s != []
    requires p.chunks == [] <==> |j| <= maxChars && (single ==> |j| < maxChars)
    requires p.chunks == [] ==> p.cur == j
    ensures Step(p, s, maxChars).chunks == [] <==> |j + " " + s| <= maxChars
    ensures Step(p, s, maxChars).chunks == [] ==> Step(p, s, maxChars).cur == j + " " + s
  {
    var q := Step(p, s, maxChars);
    if p.chunks == [] {
      if |j| + |s| + 1 > maxChars {
        assert q.chunks == [p.cur];
      } else {
        assert q.cur == j + " " + s;
      }
    } else {
      assert |q.chunks| >= |p.chunks|;
    }
  }

  /** The whole text is one chunk exactly when it fits. */
  lemma ChunkTextWhole(text: string, maxChars: int)
    requires IsNormalized(text) && text != []
    ensures ChunkText(text, maxChars) == [text] <==>
              |text| <= maxChars && (|SplitSentences(text)| == 1 ==> |text| < maxChars)
  {
    var p := ChunkTextShape(text, maxChars);
    PackWhole(SplitSentences(text), maxChars);
  }

  /** The chunk emitted before the first sentence: `""` exactly when that
      sentence does not fit beside the empty accumulator. */
  function Lead(first: string, maxChars: int): (r: seq<string>)
  {
    if |first| + 1 > maxChars then [""] else []
  }

  /** When no two neighbouring sentences fit together, every sentence is a
      chunk of its own, after the empty chunk that `Lead` gives. */
  lemma {:induction false} PackApart(ss: seq<string>, maxChars: int)
    requires |ss| >= 1 && Trimmed(ss[0])
    requires forall i :: 0 <= i < |ss| - 1 ==> |ss[i]| + |ss[i + 1]| + 1 > maxChars
    ensures Pack(ss, maxChars) == Packer(Lead(ss[0], maxChars) + ss[..|ss| - 1], ss[|ss| - 1])
  {
    var n := |ss| - 1;
    var prev := ss[..n];
    if n == 0 {
      assert prev == [];
      assert Pack(ss, maxChars) == Step(Start, ss[0], maxChars);
    } else {
      assert prev[0] == ss[0];
      forall i | 0 <= i < |prev| - 1
        ensures |prev[i]| + |prev[i + 1]| + 1 > maxChars
      {
        assert prev[i] == ss[i] && prev[i + 1] == ss[i + 1];
      }
      PackApart(prev, maxChars);
      assert prev[n - 1] == ss[n - 1] && prev[..n - 1] == ss[..n - 1];
      assert |ss[n - 1]| + |ss[n]| + 1 > maxChars;
      var lead := Lead(ss[0], maxChars);
      assert Pack(ss, maxChars) == Packer(lead + ss[..n - 1] + [ss[n - 1]], ss[n]);
      assert ss[..n - 1] + [ss[n - 1]] == ss[..n];
      assert lead + ss[..n - 1] + [ss[n - 1]] == lead + ss[..n];
    }
  }

  /** Sentences no two neighbours of which fit together are chunked one per
      chunk, after `""` when the first one alone does not fit. */
  lemma ChunkTextApart(text: string, maxChars: int)
    requires IsNormalized(text) && text != []
    requires forall i :: 0 <= i < |SplitSentences(text)| - 1 ==>
               |SplitSentences(text)[i]| + |SplitSentences(text)[i + 1]| + 1 > maxChars
    ensures ChunkText(text, maxChars) ==
              Lead(SplitSentences(text)[0], maxChars) + SplitSentences(text)
  {
    var ss := SplitSentences(text);
    SplitEnds(text);
    PackApart(ss, maxChars);
    var n := |ss| - 1;
    assert ss[..n] + [ss[n]] == ss;
  }

  /** When no sentence is shorter than `max_chars`, every sentence is a chunk
      of its own, after the empty first chunk. */
  lemma ChunkTextAllLong(text: string, maxChars: int)
    requires IsNormalized(text) && text != []
    requires forall s :: s in SplitSentences(text) ==> |s| >= maxChars
    ensures ChunkText(text, maxChars) == [""] + SplitSentences(text)
  {
    var ss := SplitSentences(text);
    assert forall i :: 0 <= i < |ss| ==> ss[i] in ss;
    ChunkTextApart(text, maxChars);
  }

  /** The text path end to end: the non-empty chunks of the document, joined
      by single spaces, are the document's words joined by single spaces. */
  lemma SpeechChunksLossless(raw: string)
    ensures Join(NonEmpty(SpeechChunks(raw))) == Join(Words(raw))
  {
    ChunkTextLossless(Normalize(raw), DefaultMaxChars);
    NormalizeJoinsWords(raw);
  }

  /** With the default limit, a chunk longer than 4500 characters is a
      single sentence of the normalised document. */
  lemma SpeechChunksBound(raw: string)
    ensures forall c :: c in SpeechChunks(raw) ==> |c| <= 4500 || c in SplitSentences(Normalize(raw))
  {
    ChunkTextBound(Normalize(raw), DefaultMaxChars);
  }

  /** The loop of main.py:20-29 as written, over the split of main.py:19. */
  method ChunkTextLoop(text: string, maxChars: int) returns (chunks: seq<string>)
    ensures chunks == ChunkText(text, maxChars)
    ensures forall c :: c in chunks ==> |c| <= maxChars || c == [] || c in SplitSentences(text)
  {
    var sentences := SplitSentences(text);
    chunks := [];
    var cur := "";
    for i := 0 to |sentences|
      invariant Packer(chunks, cur) == Pack(sentences[..i], maxChars)
    {
      var s := sentences[i];
      assert sentences[..i + 1][..i] == sentences[..i];
      if |cur| + |s| + 1 > maxChars {
        chunks := chunks + [cur];
        cur := s;
      } else {
        cur := Strip(cur + " " + s);
      }
    }
    assert sentences[..|sentences|] == sentences;
    if cur != [] {
      chunks := chunks + [cur];
    }
    ChunkTextBound(text, maxChars);
  }
}

=== FILE: concrete.dfy ===
/**
 Worked examples: the chunks `chunk_text` gives for a three-sentence sample,
 proved by lemmas.
 */
module Examples {
  import opened Chars
  import opened Normalization
  import opened Sentences
  import opened Chunker

  const First: string := "Hello world."
  const Second: string := "This is a test!"
  const Third: string := "Is it working?"

  /** `"Hello world. This is a test! Is it working?"` */
  const Sample: string := First + " " + Second + " " + Third

  lemma SampleSentencesWellFormed()
    ensures SentenceList([First, Second, Third])
    ensures Join([First, Second, Third]) == Sample
  {
    FirstIsSentence();
    SecondIsSentence();
    ThirdIsSentence();
    SampleJoin();
  }

  /** The character-level facts that make a short literal a sentence. */
  lemma PlainSentence(p: string)
    requires p != [] && Trimmed(p)
    requires forall i :: 0 <= i < |p| && IsSpace(p[i]) ==> p[i] == ' '
    requires forall i :: 0 <= i < |p| - 1 ==> !IsSpace(p[i]) || !IsSpace(p[i + 1])
    requires forall i :: 0 <= i < |p| - 1 ==> !IsTerminator(p[i])
    ensures IsSentence(p)
  {
    NoInnerTerminator(p);
  }

  lemma FirstIsSentence()
    ensures IsSentence(First) && EndsWithTerminator(First)
  {
    PlainSentence(First);
  }

  lemma SecondIsSentence()
    ensures IsSentence(Second) && EndsWithTerminator(Second)
  {
    PlainSentence(Second);
  }

  lemma ThirdIsSentence()
    ensures IsSentence(Third)
  {
    PlainSentence(Third);
  }

  lemma SampleJoin()
    ensures Join([First, Second, Third]) == Sample
  {
    JoinCons(First, [Second, Third]);
    JoinCons(Second, [Third]);
    assert [First] + [Second, Third] == [First, Second, Third];
    assert [Second] + [Third] == [Second, Third];
  }

  /** The sample splits into its three sentences. */
  lemma SampleSplit()
    ensures SplitSentences(Sample) == [First, Second, Third]
  {
    SampleSentencesWellFormed();
    SplitJoin([First, Second, Third]);
  }

  /** With `max_chars = 20` no two sentences fit together. */
  lemma SampleAt20()
    ensures ChunkText(Sample, 20) == [First, Second, Third]
  {
    SampleNormalized();
    SampleSplit();
    ChunkTextApart(Sample, 20);
  }

  lemma SampleNormalized()
    ensures IsNormalized(Sample)
  {
    SampleSentencesWellFormed();
    JoinNormalized([First, Second, Third]);
  }

  /** With `max_chars = 100` the whole sample is one chunk. */
  lemma SampleAt100()
    ensures ChunkText(Sample, 100) == [Sample]
  {
    SampleNormalized();
    SampleSplit();
    ChunkTextWhole(Sample, 100);
  }

  /** With `max_chars = 12` the first sentence does not fit beside the empty
      accumulator, so the empty string is emitted first. */
  lemma SampleAt12()
    ensures ChunkText(Sample, 12) == ["", First, Second, Third]
  {
    SampleNormalized();
    SampleSplit();
    ChunkTextAllLong(Sample, 12);
  }
}

=== FILE: normalize.dfy ===
/**
 Whitespace normalisation of the extracted document text,
 `re.sub(r'\s+', ' ', raw).strip()`: every run of whitespace becomes one
 space and the result is stripped. The reference description is `Words`:
 the normalised text is the document's words joined by single spaces.
 */
module Normalization {
  import opened Chars

  /** Every whitespace character is a plain space and no two are adjacent. */
  predicate SingleSpaced(t: string) {
    && (forall i :: 0 <= i < |t| && IsSpace(t[i]) ==> t[i] == ' ')
    && (forall i :: 0 <= i < |t| - 1 ==> !IsSpace(t[i]) || !IsSpace(t[i + 1]))
  }

  /** The shape of text after normalisation. */
  predicate IsNormalized(t: string) {
    Trimmed(t) && SingleSpaced(t)
  }

  /** The maximal leading run of non-whitespace characters. */
  function TakeWord(s: string): (w: string)
    ensures |w| <= |s| && w == s[..|w|]
    ensures forall i :: 0 <= i < |w| ==> !IsSpace(w[i])
    ensures |w| == |s| || IsSpace(s[|w|])
  {
    if s == [] || IsSpace(s[0]) then [] else [s[0]] + TakeWord(s[1..])
  }

  /** The whitespace-separated words of `s`, in order (Python's `s.split()`). */
  function Words(s: string): (ws: seq<string>)
    ensures forall i :: 0 <= i < |ws| ==> |ws[i]| > 0
    decreases |s|
  {
    var t := TrimStart(s);
    if t == [] then []
    else
      var w := TakeWord(t);
      assert |w| > 0;
      var rest := Words(t[|w|..]);
      ConsNonEmpty(w, rest);
      [w] + rest
  }

  lemma ConsNonEmpty(w: string, rest: seq<string>)
    requires |w| > 0 && forall i :: 0 <= i < |rest| ==> |rest[i]| > 0
    ensures forall i :: 0 <= i < |[w] + rest| ==> |([w] + rest)[i]| > 0
  {
    forall i | 0 <= i < |[w] + rest|
      ensures |([w] + rest)[i]| > 0
    {
      if i > 0 {
        assert ([w] + rest)[i] == rest[i - 1];
      }
    }
  }

  /** `re.sub(r'\s+', ' ', s)`: the scan replaces each maximal run of
      whitespace by one space and copies every other character. */
  function CollapseRuns(s: string): (r: string)
    ensures SingleSpaced(r)
    ensures |r| > 0 <==> |s| > 0
    ensures |s| > 0 ==> (IsSpace(r[0]) <==> IsSpace(s[0]))
    decreases |s|
  {
    if s == [] then []
    else if IsSpace(s[0]) then " " + CollapseRuns(TrimStart(s))
    else [s[0]] + CollapseRuns(s[1..])
  }

  /** The substitution keeps the trailing end: the result ends with a space
      exactly when the input ends with whitespace. With the leading end
      (`CollapseRuns`' own contract), `SingleSpaced` and `WordsOfCollapse`
      this fixes the result completely. */
  lemma {:induction false} CollapseRunsLast(s: string)
    requires s != []
    ensures IsSpace(s[|s| - 1]) ==> CollapseRuns(s)[|CollapseRuns(s)| - 1] == ' '
    ensures !IsSpace(s[|s| - 1]) ==> !IsSpace(CollapseRuns(s)[|CollapseRuns(s)| - 1])
    decreases |s|
  {
    var r := CollapseRuns(s);
    if IsSpace(s[0]) {
      var t := TrimStart(s);
      TrimStartSuffix(s);
      if t == [] {
        assert r == " ";
        assert IsSpace(s[|s| - 1]);
      } else {
        CollapseRunsLast(t);
        assert t[|t| - 1] == s[|s| - 1];
        assert r[|r| - 1] == CollapseRuns(t)[|CollapseRuns(t)| - 1];
      }
    } else if |s| == 1 {
      assert r == [s[0]];
    } else {
      CollapseRunsLast(s[1..]);
      assert s[1..][|s| - 2] == s[|s| - 1];
      assert r[|r| - 1] == CollapseRuns(s[1..])[|CollapseRuns(s[1..])| - 1];
    }
  }

  /** The expression at main.py:14. */
  function Normalize(raw: string): (t: string)
    ensures IsNormalized(t)
  {
    var c := CollapseRuns(raw);
    StripPreservesSpacing(c);
    Strip(c)
  }

  /** `strip()` cuts a slice out of its argument, so single spacing survives. */
  lemma StripPreservesSpacing(c: string)
    requires SingleSpaced(c)
    ensures SingleSpaced(Strip(c))
  {
    var s := TrimStart(c);
    TrimStartSuffix(c);
    DropSpacing(c, |c| - |s|);
    TrimEndPrefix(s);
    TakeSpacing(s, |TrimEnd(s)|);
  }

  lemma DropSpacing(c: string, k: nat)
    requires SingleSpaced(c) && k <= |c|
    ensures SingleSpaced(c[k..])
  {
    var t := c[k..];
    forall i | 0 <= i < |t| - 1
      ensures !IsSpace(t[i]) || !IsSpace(t[i + 1])
    {
      assert t[i] == c[k + i] && t[i + 1] == c[k + i + 1];
    }
  }

  lemma TakeSpacing(c: string, k: nat)
    requires SingleSpaced(c) && k <= |c|
    ensures SingleSpaced(c[..k])
  {
    var t := c[..k];
    forall i | 0 <= i < |t| - 1
      ensures !IsSpace(t[i]) || !IsSpace(t[i + 1])
    {
      assert t[i] == c[i] && t[i + 1] == c[i + 1];
    }
  }

  lemma {:induction false} TakeWordOf(w: string, c: string)
    requires |w| > 0 && forall i :: 0 <= i < |w| ==> !IsSpace(w[i])
    requires c == [] || IsSpace(c[0])
    ensures TakeWord(w + c) == w
    decreases |w|
  {
    assert (w + c)[0] == w[0];
    if |w| > 1 {
      assert (w + c)[1..] == w[1..] + c;
      TakeWordOf(w[1..], c);
    } else {
      assert (w + c)[1..] == c;
    }
  }

  /** A leading word is copied unchanged by the substitution. */
  lemma {:induction false} CollapseWord(w: string, rest: string)
    requires forall i :: 0 <= i < |w| ==> !IsSpace(w[i])
    ensures CollapseRuns(w + rest) == w + CollapseRuns(rest)
    decreases |w|
  {
    if w == [] {
      assert w + rest == rest;
    } else {
      var x := w + rest;
      assert x[0] == w[0] && !IsSpace(x[0]);
      assert x[1..] == w[1..] + rest;
      assert CollapseRuns(x) == [w[0]] + CollapseRuns(x[1..]);
      CollapseWord(w[1..], rest);
      ConsAssoc(w, CollapseRuns(rest));
    }
  }

  lemma ConsAssoc(w: string, r: string)
    requires w != []
    ensures [w[0]] + (w[1..] + r) == w + r
  {
    assert [w[0]] + w[1..] == w;
  }

  lemma WordsOfTrimStart(s: string)
    ensures Words(TrimStart(s)) == Words(s)
  {
    TrimStartUnique(TrimStart(s), TrimStart(s));
  }

  /** The substitution keeps the words of the text. */
  lemma {:induction false} WordsOfCollapse(s: string)
    ensures Words(CollapseRuns(s)) == Words(s)
    decreases |s|
  {
    if s == [] {
    } else if IsSpace(s[0]) {
      var t := TrimStart(s);
      var c := CollapseRuns(t);
      assert CollapseRuns(s) == " " + c;
      TrimStartAppend(" ", c);
      assert TrimStart(" ") == [];
      WordsOfTrimStart(" " + c);
      WordsOfTrimStart(c);
      WordsOfCollapse(t);
      WordsOfTrimStart(s);
    } else {
      var w := TakeWord(s);
      var rest := s[|w|..];
      assert s == w + rest;
      CollapseWord(w, rest);
      var c := CollapseRuns(rest);
      assert c == [] || IsSpace(c[0]);
      TakeWordOf(w, c);
      TakeWordOf(w, rest);
      assert TrimStart(w + c) == w + c;
      assert (w + c)[|w|..] == c;
      WordsOfCollapse(rest);
    }
  }

  /** Trailing whitespace does not change the words. */
  lemma {:induction false} WordsAppendSpace(x: string, y: string)
    requires forall i :: 0 <= i < |y| ==> IsSpace(y[i])
    ensures Words(x + y) == Words(x)
    decreases |x|
  {
    var t := TrimStart(x);
    TrimStartAppend(x, y);
    if t == [] {
      TrimStartUnique(y, []);
      assert TrimStart(x + y) == [];
    } else {
      var w := TakeWord(t);
      var rest := t[|w|..];
      WordsStep(t, y, w, rest);
      WordsAppendSpace(rest, y);
    }
  }

  lemma WordsStep(t: string, y: string, w: string, rest: string)
    requires forall i :: 0 <= i < |y| ==> IsSpace(y[i])
    requires t != [] && !IsSpace(t[0])
    requires w == TakeWord(t) && rest == t[|w|..]
    ensures Words(t) == [w] + Words(rest)
    ensures Words(t + y) == [w] + Words(rest + y)
  {
    assert t == w + rest;
    WordsCons(t, w, rest);
    assert t + y == w + (rest + y);
    assert rest + y == [] || IsSpace((rest + y)[0]);
    WordsCons(t + y, w, rest + y);
  }

  /** A word followed by nothing or by whitespace is the first word. */
  lemma WordsCons(u: string, w: string, tail: string)
    requires u == w + tail && |w| > 0 && forall i :: 0 <= i < |w| ==> !IsSpace(w[i])
    requires tail == [] || IsSpace(tail[0])
    ensures Words(u) == [w] + Words(tail)
  {
    TakeWordOf(w, tail);
    assert u[0] == w[0];
    assert u[|w|..] == tail;
  }

  lemma WordsOfTrimEnd(x: string)
    ensures Words(TrimEnd(x)) == Words(x)
  {
    var r := TrimEnd(x);
    TrimEndPrefix(x);
    assert x == r + x[|r|..];
    WordsAppendSpace(r, x[|r|..]);
  }

  /** Normalisation keeps the words of the text, in order. */
  lemma WordsOfNormalize(raw: string)
    ensures Words(Normalize(raw)) == Words(raw)
  {
    var c := CollapseRuns(raw);
    WordsOfCollapse(raw);
    WordsOfTrimStart(c);
    WordsOfTrimEnd(TrimStart(c));
  }

  /** Normalised text is exactly its words joined by single spaces. */
  lemma {:induction false} JoinWordsOfNormalized(t: string)
    requires IsNormalized(t)
    ensures Join(Words(t)) == t
    decreases |t|
  {
    if t != [] {
      var w := TakeWord(t);
      if |w| == |t| {
        NormalizedFirstWord(t, w);
      } else {
        var tail := t[|w| + 1..];
        NormalizedNextWord(t, w, tail);
        JoinWordsOfNormalized(tail);
        JoinCons(w, Words(tail));
      }
    }
  }

  lemma NormalizedFirstWord(t: string, w: string)
    requires IsNormalized(t) && t != [] && w == TakeWord(t) && |w| == |t|
    ensures Words(t) == [w] && w == t
  {
    assert TrimStart(t) == t;
    assert t[|w|..] == [];
  }

  lemma NormalizedNextWord(t: string, w: string, tail: string)
    requires IsNormalized(t) && t != [] && w == TakeWord(t) && |w| < |t|
    requires tail == t[|w| + 1..]
    ensures t == w + " " + tail
    ensures IsNormalized(tail) && tail != []
    ensures Words(t) == [w] + Words(tail) && Words(tail) != []
  {
    assert TrimStart(t) == t;
    var k := |w|;
    assert t[k] == ' ';
    assert k + 1 < |t|;
    assert !IsSpace(t[k + 1]);
    NormalizedSuffix(t, k + 1);
    var rest := t[k..];
    assert t == w + rest;
    assert rest == " " + tail;
    TrimStartSpace(' ', tail);
    WordsOfTrimStart(rest);
    assert Words(t) == [w] + Words(rest);
    assert |Words(tail)| > 0;
    SpaceBetween(w, tail);
  }

  /** Regrouping a concatenation around one space. */
  lemma SpaceBetween(a: string, b: string)
    ensures a + (" " + b) == a + " " + b
  {
  }

  /** A suffix of normalised text that starts at a non-space is normalised. */
  lemma NormalizedSuffix(t: string, k: nat)
    requires IsNormalized(t) && k < |t| && !IsSpace(t[k])
    ensures IsNormalized(t[k..])
  {
    DropSpacing(t, k);
  }

  /** The reference description: normalising gives the words of the raw
      text joined by single spaces. */
  lemma NormalizeJoinsWords(raw: string)
    ensures Normalize(raw) == Join(Words(raw))
  {
    WordsOfNormalize(raw);
    JoinWordsOfNormalized(Normalize(raw));
  }

  /** Normalised text is exactly the fixed points of `Normalize`. */
  lemma NormalizeFixpoint(t: string)
    ensures Normalize(t) == t <==> IsNormalized(t)
  {
    if IsNormalized(t) {
      NormalizeJoinsWords(t);
      JoinWordsOfNormalized(t);
    }
  }

  lemma NormalizeIdempotent(raw: string)
    ensures Normalize(Normalize(raw)) == Normalize(raw)
  {
    NormalizeFixpoint(Normalize(raw));
  }

  /** Two pieces of normalised text joined by one space stay normalised. */
  lemma NormalizedSpaced(a: string, b: string)
    requires IsNormalized(a) && IsNormalized(b) && a != [] && b != []
    ensures IsNormalized(a + " " + b)
  {
    var t := a + " " + b;
    assert forall i :: 0 <= i < |a| ==> t[i] == a[i];
    assert t[|a|] == ' ';
    assert forall i :: |a| < i < |t| ==> t[i] == b[i - |a| - 1];
    forall i | 0 <= i < |t| - 1
      ensures !IsSpace(t[i]) || !IsSpace(t[i + 1])
    {
      if i < |a| - 1 {
      } else if i == |a| - 1 {
      } else if i == |a| {
        assert t[i + 1] == b[0];
      } else {
        assert t[i] == b[i - |a| - 1] && t[i + 1] == b[i - |a|];
      }
    }
  }

  /** A prefix of normalised text that ends at a non-space is normalised. */
  lemma NormalizedPrefix(t: string, k: nat)
    requires IsNormalized(t) && 0 < k <= |t| && !IsSpace(t[k - 1])
    ensures IsNormalized(t[..k])
  {
    TakeSpacing(t, k);
  }
}

=== FILE: sentences.dfy ===
/**
 Sentence splitting, `re.split(r'(?<=[\.\?!])\s+', text)`: the text is cut
 at every whitespace run that directly follows `.`, `?` or `!`, the run is
 dropped and the terminator stays with the sentence before it.
 */
module Sentences {
  import opened Chars
  import opened Normalization

  /** The pattern matches at the head of `rest`: the lookbehind sees the last
      character read into the current piece, and `\s+` needs a whitespace. */
  predicate AtBoundary(cur: string, rest: string) {
    |cur| > 0 && IsTerminator(cur[|cur| - 1]) && |rest| > 0 && IsSpace(rest[0])
  }

  /** The left-to-right scan of `re.split`: `cur` holds the characters of the
      current piece read so far, `rest` what is still to be scanned. After a
      match the piece starts empty, and the lookbehind then sees a whitespace
      character, which is no terminator. */
  function SplitFrom(rest: string, cur: string): (r: seq<string>)
    ensures |r| >= 1
    decreases |rest|
  {
    if rest == [] then [cur]
    else if AtBoundary(cur, rest) then [cur] + SplitFrom(TrimStart(rest), "")
    else SplitFrom(rest[1..], cur + [rest[0]])
  }

  /** The expression at main.py:19. */
  function SplitSentences(text: string): (r: seq<string>)
    ensures |r| >= 1
  {
    SplitFrom(text, "")
  }

  /** No terminator inside `p` is followed by whitespace. */
  predicate NoBoundaryIn(p: string) {
    forall i :: 0 <= i < |p| - 1 ==> !(IsTerminator(p[i]) && IsSpace(p[i + 1]))
  }

  /** A piece whose only terminator, if any, is its last character holds no
      split point. */
  lemma NoInnerTerminator(p: string)
    requires forall i :: 0 <= i < |p| - 1 ==> !IsTerminator(p[i])
    ensures NoBoundaryIn(p)
  {
  }

  /** One piece as the split yields it from normalised text. */
  predicate IsSentence(p: string) {
    p != [] && IsNormalized(p) && NoBoundaryIn(p)
  }

  predicate EndsWithTerminator(p: string) {
    p != [] && IsTerminator(p[|p| - 1])
  }

  /** Sentences in a row: each one is a sentence and every one but the last
      ends in a terminator. */
  predicate SentenceList(ps: seq<string>) {
    && (forall i :: 0 <= i < |ps| ==> IsSentence(ps[i]))
    && (forall i :: 0 <= i < |ps| - 1 ==> EndsWithTerminator(ps[i]))
  }

  /** Reading characters that hold no split point only extends the piece. */
  lemma {:induction false} ReadWithoutBoundary(w: string, rest: string, cur: string)
    requires NoBoundaryIn(cur + w)
    ensures SplitFrom(w + rest, cur) == SplitFrom(rest, cur + w)
    decreases |w|
  {
    if w == [] {
      assert w + rest == rest;
      assert cur + w == cur;
    } else {
      var s := w + rest;
      assert s[0] == w[0] && s[1..] == w[1..] + rest;
      if |cur| > 0 {
        assert (cur + w)[|cur| - 1] == cur[|cur| - 1] && (cur + w)[|cur|] == w[0];
      }
      assert !AtBoundary(cur, s);
      assert cur + [w[0]] + w[1..] == cur + w;
      ReadWithoutBoundary(w[1..], rest, cur + [w[0]]);
    }
  }

  /** Joining sentences and splitting the result gives the sentences back. */
  lemma {:induction false} SplitJoin(ps: seq<string>)
    requires |ps| >= 1 && SentenceList(ps)
    ensures SplitSentences(Join(ps)) == ps
    decreases |ps|
  {
    var p := ps[0];
    assert IsSentence(p);
    if |ps| == 1 {
      ReadWithoutBoundary(p, [], "");
      assert p + [] == p && "" + p == p;
    } else {
      var tail := ps[1..];
      assert SentenceList(tail);
      var j := Join(tail);
      JoinCons(p, tail);
      assert ps == [p] + tail;
      SpaceBetween(p, j);
      ReadWithoutBoundary(p, " " + j, "");
      assert "" + p == p;
      assert AtBoundary(p, " " + j) by {
        assert EndsWithTerminator(ps[0]);
      }
      JoinHead(tail);
      assert (" " + j)[1..] == j;
      assert TrimStart(" " + j) == j;
      SplitJoin(tail);
    }
  }

  /** A join of sentences starts with the first sentence's first character. */
  lemma JoinHead(ps: seq<string>)
    requires |ps| >= 1 && ps[0] != []
    ensures Join(ps) != [] && Join(ps)[0] == ps[0][0]
  {
  }

  /** On normalised text the scan yields sentences that join back to the
      text it read. */
  lemma {:induction false} SplitFromShape(rest: string, cur: string)
    requires IsNormalized(cur + rest) && cur + rest != []
    requires NoBoundaryIn(cur)
    ensures SentenceList(SplitFrom(rest, cur))
    ensures Join(SplitFrom(rest, cur)) == cur + rest
    decreases |rest|, 1
  {
    if rest == [] {
      assert cur + rest == cur;
    } else if AtBoundary(cur, rest) {
      SplitFromShapeAtBoundary(rest, cur);
    } else {
      var cur' := ReadFacts(rest, cur);
      SplitFromShape(rest[1..], cur');
    }
  }

  lemma {:induction false} SplitFromShapeAtBoundary(rest: string, cur: string)
    requires IsNormalized(cur + rest) && NoBoundaryIn(cur) && AtBoundary(cur, rest)
    ensures SentenceList(SplitFrom(rest, cur))
    ensures Join(SplitFrom(rest, cur)) == cur + rest
    decreases |rest|, 0
  {
    var tail := BoundaryFacts(rest, cur);
    assert "" + tail == tail;
    SplitFromShape(tail, "");
    var more := SplitFrom(tail, "");
    assert SplitFrom(rest, cur) == [cur] + more;
    JoinCons(cur, more);
    SpaceBetween(cur, tail);
    ConsSentence(cur, more);
  }

  /** At a split point of normalised text the piece read so far is a whole
      sentence, one space follows and the rest is normalised again. */
  lemma BoundaryFacts(rest: string, cur: string) returns (tail: string)
    requires IsNormalized(cur + rest) && NoBoundaryIn(cur) && AtBoundary(cur, rest)
    ensures |rest| >= 2 && tail == rest[1..] && rest == " " + tail
    ensures TrimStart(rest) == tail && tail != [] && IsNormalized(tail)
    ensures IsSentence(cur) && EndsWithTerminator(cur)
  {
    var t := cur + rest;
    var k := |cur|;
    assert t[k] == rest[0];
    assert rest[0] == ' ';
    assert |rest| >= 2;
    tail := rest[1..];
    assert t[k + 1] == tail[0];
    assert rest == [' '] + tail;
    TrimStartSpace(' ', tail);
    NormalizedSuffix(t, k + 1);
    assert t[k + 1..] == tail;
    assert t[k - 1] == cur[k - 1];
    NormalizedPrefix(t, k);
    assert t[..k] == cur;
  }

  /** Away from a split point the scan moves one character into the piece. */
  lemma ReadFacts(rest: string, cur: string) returns (cur': string)
    requires NoBoundaryIn(cur) && rest != [] && !AtBoundary(cur, rest)
    ensures cur' == cur + [rest[0]] && cur' + rest[1..] == cur + rest
    ensures NoBoundaryIn(cur') && SplitFrom(rest, cur) == SplitFrom(rest[1..], cur')
  {
    cur' := cur + [rest[0]];
    assert cur' + rest[1..] == cur + rest;
    forall i | 0 <= i < |cur'| - 1
      ensures !(IsTerminator(cur'[i]) && IsSpace(cur'[i + 1]))
    {
      if i < |cur| - 1 {
        assert cur'[i] == cur[i] && cur'[i + 1] == cur[i + 1];
      }
    }
  }

  lemma ConsSentence(p: string, ps: seq<string>)
    requires IsSentence(p) && EndsWithTerminator(p) && SentenceList(ps)
    ensures SentenceList([p] + ps)
  {
    var qs := [p] + ps;
    assert forall i :: 0 < i < |qs| ==> qs[i] == ps[i - 1];
  }

  /** For normalised non-empty text, the split yields well-formed sentences
      that join back to the text. */
  lemma SplitShape(text: string)
    requires IsNormalized(text) && text != []
    ensures SentenceList(SplitSentences(text))
    ensures Join(SplitSentences(text)) == text
  {
    assert "" + text == text;
    SplitFromShape(text, "");
  }

  /** Text that ends a sentence, followed by one space and another sentence,
      splits into its own sentences and then that one. */
  lemma SplitSnoc(text: string, s: string)
    requires IsNormalized(text) && text != [] && IsSentence(s)
    requires EndsWithTerminator(SplitSentences(text)[|SplitSentences(text)| - 1])
    ensures SplitSentences(text + " " + s) == SplitSentences(text) + [s]
  {
    var g := SplitSentences(text);
    SplitShape(text);
    assert |g| >= 1;
    var h := g + [s];
    assert forall i :: 0 <= i < |g| ==> h[i] == g[i];
    assert SentenceList(h);
    JoinSnoc(g, s);
    SplitJoin(h);
  }

  /** The two ends of the split of normalised non-empty text: the first
      piece has no whitespace at either end and the last one is non-empty. */
  lemma SplitEnds(text: string)
    requires IsNormalized(text) && text != []
    ensures Trimmed(SplitSentences(text)[0])
    ensures SplitSentences(text)[|SplitSentences(text)| - 1] != []
  {
    var ss := SplitSentences(text);
    SplitShape(text);
    assert IsSentence(ss[0]) && IsSentence(ss[|ss| - 1]);
  }

  /** The split of normalised non-empty text is the one list of sentences
      that joins to it. */
  lemma SplitCharacterization(text: string, ps: seq<string>)
    requires IsNormalized(text) && text != []
    ensures SplitSentences(text) == ps ==> |ps| >= 1 && SentenceList(ps) && Join(ps) == text
    ensures |ps| >= 1 && SentenceList(ps) && Join(ps) == text ==> SplitSentences(text) == ps
  {
    SplitShape(text);
    if |ps| >= 1 && SentenceList(ps) && Join(ps) == text {
      SplitJoin(ps);
    }
  }

  /** Sentences joined by single spaces form normalised text. */
  lemma {:induction false} JoinNormalized(ps: seq<string>)
    requires |ps| >= 1 && SentenceList(ps)
    ensures IsNormalized(Join(ps))
    decreases |ps|
  {
    assert IsSentence(ps[0]);
    if |ps| > 1 {
      var tail := ps[1..];
      assert SentenceList(tail) by {
        assert forall i :: 0 <= i < |tail| ==> tail[i] == ps[i + 1];
      }
      JoinNormalized(tail);
      JoinHead(tail);
      JoinCons(ps[0], tail);
      assert [ps[0]] + tail == ps;
      NormalizedSpaced(ps[0], Join(tail));
    }
  }
}
